=== FILE: README.md ===
# crossplaycheater board model

A Dafny model of the core of crossplaycheater, a tool that reads a screenshot
of a Scrabble game and recovers the 15x15 board. The model has two parts.

* The board container (`crossplaycheater/board.py`). It covers cells with an
  optional letter and a blank-tile flag, and the default empty grid. It covers
  the row-string text codec (`from_strings`, `to_strings`, `Cell.__str__`) and
  the point operations `get`, `set`, `is_empty` and `iter_cells`.
* The decision and arithmetic logic of the board analyser
  (`crossplaycheater/board_analyzer.py`). Every image and OCR call becomes a
  plain input. It covers:
  * how the board contour is picked from abstract contour records, and the
    whole-image fallback;
  * the canonical ordering of the four corners;
  * the integer bounds of the 15x15 cell grid with its margin trim;
  * the emptiness heuristic, over a cell's gray values;
  * the selection of the OCR reading, over the readings the engine returned;
  * the row-major assembly of the recognised letters into a board.

Modules, one per file:

| module | file | models |
|---|---|---|
| `Wrappers` | wrappers.dfy | `Option` and `Result` |
| `Ascii` | ascii.dfy | the ASCII part of `str.upper`, `str.lower`, `str.islower`, `str.isalpha` and `str.strip` |
| `Board` | board.dfy | `Cell`, `ScrabbleBoard` and its methods |
| `Segmentation` | segmentation.dfy | `_extract_cells` |
| `Corners` | corners.dfy | `_order_corners` |
| `Contours` | contours.dfy | `_find_board_contour` and the branching of `_detect_board_region` |
| `Emptiness` | emptiness.dfy | `_is_cell_empty` |
| `Recognition` | recognition.dfy | the selection loop of `_recognize_cell` |
| `Analyzer` | analyzer.dfy | the recognition and assembly loop of `analyze` |

Two tests are stated in exact integers:
* "Variance below 100" is stated as `n * sum(x^2) - sum(x)^2 < 100 * n^2`.
  `Emptiness.LowVarianceIsVarianceBelowLimit` proves it equal to the textbook
  definition over squared deviations from the mean.
* "Peak ratio above 0.5" is stated as `2 * peak > n`.
  `Emptiness.HistogramTotal` shows that the histogram's total is the pixel
  count `n`.

## Model

| member | source | states |
|---|---|---|
| Board.Render | crossplaycheater/board.py:23-26 | A cell renders as "." exactly when it has no letter (or its letter is itself "."). Otherwise the rendering has the letter's length, with no upper-case letter for a blank tile and no lower-case letter for a regular one. |
| Board.FirstBadRow | crossplaycheater/board.py:55-59 | Returns the first row whose length is not 15; all earlier rows have length 15. Returns none exactly when every row has length 15. |
| Board.FromStrings | crossplaycheater/board.py:42-67 | Fails with the row-count error when there are not 15 rows. Fails with the row-length error on the first row whose length is not 15, reporting that row's length. Succeeds exactly when there are 15 rows of 15 characters. The resulting board is 15x15 and holds at each square the cell that square's character stands for. |
| Board.NewBoard | crossplaycheater/board.py:37-39 | The default board is 15x15 and every square is the empty, non-blank cell. |
| Board.NewBoardText | crossplaycheater/board.py:37-39 | A fresh board serialises to 15 rows of 15 dots. |
| Board.Set | crossplaycheater/board.py:79-91 | Keeps the grid's shape and changes no other square. Stores the given blank flag. Stores no letter exactly when the letter is None or the empty string; otherwise stores its upper-case form. |
| Board.SetThenIsEmpty | crossplaycheater/board.py:88-91 | After `set`, `is_empty` holds at that square exactly when the letter given was falsy. |
| Board.SetKeepsCanonical | crossplaycheater/board.py:79-91 | Setting one ASCII letter on a square board of well-formed cells keeps it square and well-formed, so it still serialises faithfully. |
| Board.IsEmptyMatchesText | crossplaycheater/board.py:93-101 | On a board of well-formed cells, `is_empty` (Board.IsEmpty) holds at a square exactly when the text form shows a dot there. |
| Board.GetAfterSet | crossplaycheater/board.py:69-91 | `get` (Board.Get) after `set` reads back the stored cell at the square that was set: the upper-cased letter, or no letter for None or "", with the given blank flag. Every other square reads as before. |
| Board.ParseCellAgreesWithSet | crossplaycheater/board.py:60-66 | A dot leaves the default empty cell. Any other character stores the same cell as `set` with that character and the blank flag "the character is lower-case". |
| Board.ToStringsShape | crossplaycheater/board.py:113-119 | `to_strings` of a square board of well-formed cells gives 15 rows of 15 characters. A square shows a dot exactly when it has no letter, and a lower-case character exactly when it holds a blank tile. |
| Board.IterRowsRowMajor | crossplaycheater/board.py:103-111 | Iterating rows of 15 cells yields 15 triples per row. Triple k is (first row + k / 15, k % 15, the cell there). |
| Board.IterCellsRowMajor | crossplaycheater/board.py:103-111 | `iter_cells` (Board.IterCells) on a 15x15 board yields exactly 225 triples in row-major order, each agreeing with `get`. |
| Board.RenderParseCell | crossplaycheater/board.py:60-66 | Parsing one ASCII character into a cell and rendering the cell gives that character back. |
| Board.ParseRenderCell | crossplaycheater/board.py:23-26 | A well-formed cell renders as one character, and parsing that character gives the cell back. |
| Board.StringsRoundTrip | crossplaycheater/board.py:113-119 | For 15 rows of 15 ASCII characters, parsing succeeds and `to_strings` of the result gives the rows back. |
| Board.BoardRoundTrip | crossplaycheater/board.py:42-67 | A square board of well-formed cells, serialised and parsed back, is the same board. |
| Board.EmptyBlankCellIsNotSerialised | crossplaycheater/board.py:88-91 | `set(0, 0, None, True)` gives a board whose text form does not parse back to it: a blank flag without a letter is lost. |
| Ascii.TrimStart | crossplaycheater/board_analyzer.py:315 | Left stripping keeps a suffix of the input: everything dropped is whitespace, and what is kept is empty or starts with a non-whitespace character. |
| Ascii.TrimEnd | crossplaycheater/board_analyzer.py:315 | Right stripping keeps a prefix of the input: everything dropped is whitespace, and what is kept is empty or ends with a non-whitespace character. |
| Ascii.StripTrimmed | crossplaycheater/board_analyzer.py:315 | The stripped text is no longer than the input and neither starts nor ends with whitespace. |
| Segmentation.Margin | crossplaycheater/board_analyzer.py:272 | The trim margin is always at least two pixels. |
| Segmentation.ExtractCells | crossplaycheater/board_analyzer.py:257-282 | Returns 15 rows of 15 boxes, and every box is at least one pixel high and wide. Each box is shrunk by twice the margin on each axis, or to one pixel when the cell is too small, and shifted in by the margin when the cell is large enough. When both cell sizes are at least one pixel, each box lies inside its untrimmed cell and boxes at distinct positions share no pixel. |
| Segmentation.UntrimmedDisjoint | crossplaycheater/board_analyzer.py:263-269 | Untrimmed cells at distinct grid positions share no pixel. |
| Segmentation.UntrimmedAbut | crossplaycheater/board_analyzer.py:266-269 | Vertically and horizontally adjacent untrimmed cells abut, and each untrimmed cell spans exactly the cell size on each axis. |
| Segmentation.UntrimmedTiling | crossplaycheater/board_analyzer.py:257-269 | A pixel lies in some untrimmed cell exactly when it lies in [0, 15 * cell_h) x [0, 15 * cell_w). |
| Segmentation.CellOfPixel | crossplaycheater/board_analyzer.py:257-269 | A pixel of that rectangle lies in cell (y / cell_h, x / cell_w), and that cell is inside the grid. |
| Segmentation.Leftover | crossplaycheater/board_analyzer.py:257-259 | The uncovered strip on each axis is narrower than 15 pixels. |
| Corners.SortByY | crossplaycheater/board_analyzer.py:236 | The y-sort is a permutation of its input, ordered by y. |
| Corners.OrderPair | crossplaycheater/board_analyzer.py:241-242 | A pair ordered by x is the same two points with the smaller x first. |
| Corners.OrderCorners | crossplaycheater/board_analyzer.py:235-244 | The four corners returned are a permutation of the input. Both top corners are no lower than both bottom corners. Top-left is left of top-right, and bottom-left is left of bottom-right. |
| Corners.SortedUnique | crossplaycheater/board_analyzer.py:236 | Two y-sorted arrangements of the same points with distinct y coordinates are identical, so the y-sort is determined by the set of points. |
| Corners.OrderCornersPermutationInvariant | crossplaycheater/board_analyzer.py:235-244 | With distinct y coordinates, every permutation of the four points gives the same canonical corners. |
| Corners.OrderCornersIdempotent | crossplaycheater/board_analyzer.py:235-244 | With distinct y coordinates, ordering already ordered corners changes nothing. |
| Contours.LargestCandidate | crossplaycheater/board_analyzer.py:172-190 | Returns nothing exactly when no contour has both area at least 0.1 of the image and a four-vertex approximation. Otherwise returns a qualifying contour whose area is at least every qualifying area and strictly above every earlier qualifying contour's area (the stable descending sort). |
| Contours.FindBoardContour | crossplaycheater/board_analyzer.py:167-190 | Returns no corners exactly when no contour qualifies; otherwise returns four corners. |
| Contours.FindBoardContourPicksLargest | crossplaycheater/board_analyzer.py:185-190 | When some contour qualifies, the corners returned are those of a qualifying contour of maximal area with no earlier qualifying contour of the same area. |
| Contours.DetectBoardRegion | crossplaycheater/board_analyzer.py:135-152 | Falls back to the whole image exactly when no contour qualifies, including when there are no contours. Otherwise warps the chosen contour's four vertices in canonical corner order: it is the `_order_corners` result for them, so both top corners are no lower than both bottom corners and each pair is ordered left to right. |
| Emptiness.HistogramCounts | crossplaycheater/board_analyzer.py:342 | Bin v of the 256-bin histogram is the number of pixels of gray value v. |
| Emptiness.Peak | crossplaycheater/board_analyzer.py:343 | The peak is a bin count that no bin exceeds. |
| Emptiness.HistogramTotal | crossplaycheater/board_analyzer.py:342-343 | The bins add up to the pixel count, so "peak over total above one half" is "twice the peak above the pixel count". |
| Emptiness.LowVarianceIsVarianceBelowLimit | crossplaycheater/board_analyzer.py:337-338 | The integer variance test holds exactly when the population variance (mean squared deviation from the mean) is below 100. |
| Emptiness.IsCellEmptyCharacterization | crossplaycheater/board_analyzer.py:334-347 | `_is_cell_empty` (Emptiness.IsCellEmpty) judges a cell empty exactly when its variance is below 100 or some gray value holds more than half of its pixels. |
| Emptiness.UniformCellIsEmpty | crossplaycheater/board_analyzer.py:336-339 | A cell of one solid gray value passes the variance test and is empty. |
| Emptiness.DominantValueIsEmpty | crossplaycheater/board_analyzer.py:341-345 | A gray value held by more than half of the pixels makes the cell empty. |
| Emptiness.SplitCellIsNotEmpty | crossplaycheater/board_analyzer.py:334-347 | Two pixels, black and white, give high variance and no dominant value, so the cell is not empty. |
| Recognition.NormalizeFacts | crossplaycheater/board_analyzer.py:315 | The normalised text `text.strip().upper()` (Recognition.Normalize) is no longer than the reading, contains no lower-case letter, and neither starts nor ends with whitespace. |
| Recognition.FirstAccepted | crossplaycheater/board_analyzer.py:313-321 | Returns the position of an accepted reading, with every earlier reading rejected. Returns none exactly when every reading is rejected. |
| Recognition.SelectLetter | crossplaycheater/board_analyzer.py:309-323 | The letter chosen is upper-case. No letter is chosen exactly when no reading is accepted, which includes an empty list of readings. |
| Recognition.RecognizeCell | crossplaycheater/board_analyzer.py:299-323 | A cell judged empty yields no letter, whatever the readings. A letter, when returned, is upper-case and comes from an accepted reading. For a cell not judged empty, the letter is the one the scan of the readings chooses. |
| Recognition.AcceptsStripped | crossplaycheater/board_analyzer.py:314-316 | A reading is accepted (Recognition.Accepts) exactly when its confidence reaches the threshold, its text is non-empty, and the stripped text is a single letter of either case. |
| Recognition.NonEmptyCellReadsFirstAccepted | crossplaycheater/board_analyzer.py:299-323 | For a cell not judged empty, no letter is returned exactly when no reading is accepted. Otherwise the letter is the stripped, upper-cased text of the first accepted reading. |
| Recognition.AcceptedOnly | crossplaycheater/board_analyzer.py:313-316 | Keeps exactly the readings the loop would accept: every reading kept is accepted, every accepted reading is kept, and nothing is added (the kept readings are a sub-multiset of the input). |
| Recognition.AcceptedOnlyConcat | crossplaycheater/board_analyzer.py:313-316 | The accepted readings of a list split in two are those of the first part followed by those of the second, so the kept readings stay in the engine's order. |
| Recognition.RejectedReadingsIgnored | crossplaycheater/board_analyzer.py:313-321 | Choosing from the accepted readings alone gives the same letter, namely that of the first accepted reading. A letter is chosen exactly when some reading is accepted. |
| Recognition.LaterReadingsIgnored | crossplaycheater/board_analyzer.py:313-321 | Readings after an accepted one never change the result. |
| Recognition.WeakReadingSkipped | crossplaycheater/board_analyzer.py:313-321 | At the default threshold 0.5, the readings ("A", 0.3) then (" b ", 0.9) yield 'B': the weak reading is skipped. |
| Recognition.TwoLetterReadingRejected | crossplaycheater/board_analyzer.py:316 | A reading of "AB" yields no letter, however confident. |
| Analyzer.TileFor | crossplaycheater/board_analyzer.py:116-117 | A recognised letter becomes a well-formed, non-blank tile holding exactly that letter, and no letter leaves the square empty. |
| Analyzer.ExpectedCell | crossplaycheater/board_analyzer.py:114-117 | The square for one cell image is well-formed and never blank. It has a letter exactly when recognition returned one, that letter is the one recognised, and it is empty for a cell judged empty. |
| Analyzer.Place | crossplaycheater/board_analyzer.py:116-117 | On an empty square, `if letter: set(...)` leaves exactly the tile for the letter, and no other square changes. |
| Analyzer.StoreCell | crossplaycheater/board_analyzer.py:114-117 | One step of the loop puts the expected square in place and changes no other square. |
| Analyzer.AnalyzeRow | crossplaycheater/board_analyzer.py:113-117 | One pass of the inner loop fills the row with the expected squares and leaves every other row unchanged. |
| Analyzer.Analyze | crossplaycheater/board_analyzer.py:110-123 | The board returned is 15x15. Every square holds the non-blank tile for the letter recognised in its cell, or nothing. Its text form parses back to the same board. |
| Analyzer.OneConfidentLetter | crossplaycheater/board_analyzer.py:110-117 | When every other cell is judged empty and one cell is read as a single confident upper-case letter, the board holds exactly that non-blank tile at that square and nothing elsewhere. |

## Left out

- Image decoding and I/O: the file-existence check and `cv2.imread` in `analyze` are not modelled. Their errors happen before any logic modelled here.
- Image preprocessing (`crossplaycheater/preprocessing.py`): blurring, edge detection, resizing, thresholding and denoising are OpenCV calls whose behaviour is not visible. The BGR-to-gray conversion is left out too: a cell arrives as its gray values.
- Contour geometry is not modelled: `cv2.findContours`, `contourArea`, `arcLength` and `approxPolyDP`. Each contour arrives as its area and the vertices of its approximated polygon.
- `_perspective_transform` is not modelled: Euclidean norms in floating point, homography estimation and warping. The model stops at the ordered corners.
- The pixel slicing in `_extract_cells` is not modelled: only the integer box bounds are.
- The EasyOCR reader is not modelled: its lazy construction, its allowlist and its recognition. Its `readtext` answer is an input sequence of (text, confidence) readings in the engine's order. The bounding box it also returns is never used and is dropped.
- Logging is not modelled, including the count of non-empty cells that `analyze` logs.
- `ScrabbleBoard.__str__`: the decorative header layout is display only.
- Unicode: `upper`, `lower`, `islower`, `isalpha` and `strip` are modelled on ASCII only. The round-trip lemmas therefore require ASCII characters.
- Negative indices: Python's `get` and `set` accept negative indices from the end of a row. The model requires indices inside the grid.
- Floating point is not modelled. The 10% area threshold is compared in exact reals. `np.var` and the peak ratio are replaced by exact integer tests. Rounding in float32 or float64 could flip a comparison that sits exactly on a boundary.
- Emptiness.IsCellEmpty requires at least one pixel. On an empty image the colour conversion fails before either test runs.
- Segmentation.ExtractCells gives no containment or disjointness when a cell size is 0 (an image under 15 pixels). There the trim yields the slice [-1:0] on each axis, which numpy reads as an empty slice, so every cell image has no pixels and the colour conversion in `_is_cell_empty` fails (see the Emptiness.IsCellEmpty line). This is why Analyzer.WellFormed asks for at least one gray value per cell.
- Corners.SortByY: numpy does not promise which of two points with equal y comes first after `np.argsort`; the model keeps input order. Order independence is therefore proved only for distinct y coordinates.
- Corners.OrderPair: numpy does not promise which of two points with equal x comes first within a pair; the model keeps input order.
- The leftover `height % 15` rows and `width % 15` columns belong to no cell, as the code computes the bounds.
- The analyser settings `min_cell_size` and `empty_cell_threshold` are declared but never read by the code, so they are not modelled.

=== FILE: analyzer.dfy ===
/** The assembly step of `BoardAnalyzer.analyze`
    (crossplaycheater/board_analyzer.py): every one of the 15x15 cells is
    recognised and each recognised letter is stored on a fresh board. Locating
    the board and cutting it into cells are modelled in the Contours and
    Segmentation modules; the pixels themselves are not modelled, so each cell
    arrives as its grayscale values and the readings the OCR engine would
    return for it. */
module Analyzer {
  import opened Wrappers
  import opened Ascii
  import opened Board
  import opened Emptiness
  import opened Recognition

  /** What the model knows about one cell image. */
  datatype CellObservation = CellObservation(gray: seq<Gray>, readings: seq<Candidate>)

  /** One observation per board square, each with at least one pixel. */
  predicate WellFormed(obs: seq<seq<CellObservation>>) {
    && |obs| == BoardSize
    && (forall i :: 0 <= i < |obs| ==> |obs[i]| == BoardSize)
    && (forall i, j :: 0 <= i < |obs| && 0 <= j < |obs[i]| ==> |obs[i][j].gray| > 0)
  }

  /** The square holding a recognised letter as a regular (non-blank) tile, or
      nothing. */
  function TileFor(letter: Option<char>): (c: Cell)
    requires letter.Some? ==> IsUpper(letter.value)
    ensures IsCanonical(c) && !c.isBlank
    ensures c.letter.None? <==> letter.None?
    ensures letter.Some? ==> c.letter == Some([letter.value])
  {
    match letter
    case None => EmptyCell
    case Some(ch) => Cell(Some([ch]), false)
  }

  /** The square the analysis should produce for one observation. */
  function ExpectedCell(o: CellObservation, threshold: real): (c: Cell)
    requires |o.gray| > 0
    ensures IsCanonical(c) && !c.isBlank
    ensures c.letter.None? <==> RecognizeCell(o.gray, o.readings, threshold).None?
    ensures IsCellEmpty(o.gray) ==> c == EmptyCell
    ensures RecognizeCell(o.gray, o.readings, threshold).Some? ==>
              c.letter == Some([RecognizeCell(o.gray, o.readings, threshold).value])
  {
    TileFor(RecognizeCell(o.gray, o.readings, threshold))
  }

  /** Storing an upper-case letter stores it unchanged. */
  lemma UpperLetterStoredAsIs(ch: char)
    requires IsUpper(ch)
    ensures UpperString([ch]) == [ch]
  {
  }

  /** `if letter: board.set(row, col, letter)`: on an empty square this leaves
      exactly the tile for the letter, and no other square changes. */
  function Place(b: ScrabbleBoard, row: nat, col: nat, letter: Option<char>): (b': ScrabbleBoard)
    requires IsSquare(b) && row < BoardSize && col < BoardSize
    requires b.grid[row][col] == EmptyCell
    requires letter.Some? ==> IsUpper(letter.value)
    ensures IsSquare(b')
    ensures b'.grid[row][col] == TileFor(letter)
    ensures forall i, j :: 0 <= i < BoardSize && 0 <= j < BoardSize && (i != row || j != col) ==>
              b'.grid[i][j] == b.grid[i][j]
  {
    if letter.Some? then
      UpperLetterStoredAsIs(letter.value);
      Set(b, row, col, Some([letter.value]), false)
    else b
  }

  /** The loop body of `analyze`: recognise one cell and store what was read. */
  function StoreCell(b: ScrabbleBoard, row: nat, col: nat, o: CellObservation, threshold: real): (b': ScrabbleBoard)
    requires IsSquare(b) && row < BoardSize && col < BoardSize && |o.gray| > 0
    requires b.grid[row][col] == EmptyCell
    ensures IsSquare(b')
    ensures b'.grid[row][col] == ExpectedCell(o, threshold)
    ensures forall i, j :: 0 <= i < BoardSize && 0 <= j < BoardSize && (i != row || j != col) ==>
              b'.grid[i][j] == b.grid[i][j]
  {
    Place(b, row, col, RecognizeCell(o.gray, o.readings, threshold))
  }

  /** The board the analysis should produce: every square holds the tile for
      what was recognised in it. */
  function Target(obs: seq<seq<CellObservation>>, threshold: real): (t: ScrabbleBoard)
    requires WellFormed(obs)
    ensures IsSquare(t) && AllCanonical(t)
    ensures forall i, j :: 0 <= i < BoardSize && 0 <= j < BoardSize ==>
              t.grid[i][j] == ExpectedCell(obs[i][j], threshold)
  {
    ScrabbleBoard(seq(BoardSize, i requires 0 <= i < BoardSize =>
      seq(BoardSize, j requires 0 <= j < BoardSize => ExpectedCell(obs[i][j], threshold))))
  }

  /** The inner loop of `analyze`: one row, left to right. Earlier rows keep
      their tiles and later rows stay empty. */
  method AnalyzeRow(b: ScrabbleBoard, obs: seq<seq<CellObservation>>, row: nat, threshold: real)
    returns (b': ScrabbleBoard)
    requires WellFormed(obs) && row < BoardSize && IsSquare(b)
    requires forall j :: 0 <= j < BoardSize ==> b.grid[row][j] == EmptyCell
    ensures IsSquare(b')
    ensures forall j :: 0 <= j < BoardSize ==> b'.grid[row][j] == Target(obs, threshold).grid[row][j]
    ensures forall i :: 0 <= i < BoardSize && i != row ==> b'.grid[i] == b.grid[i]
  {
    ghost var t := Target(obs, threshold);
    b' := b;
    var col := 0;
    while col < BoardSize
      invariant 0 <= col <= BoardSize
      invariant IsSquare(b')
      invariant forall j :: 0 <= j < col ==> b'.grid[row][j] == t.grid[row][j]
      invariant forall j :: col <= j < BoardSize ==> b'.grid[row][j] == EmptyCell
      invariant forall i :: 0 <= i < BoardSize && i != row ==> b'.grid[i] == b.grid[i]
    {
      b' := StoreCell(b', row, col, obs[row][col], threshold);
      col := col + 1;
    }
  }

  /** `analyze` after the cells are cut: start from an empty board and, in row
      then column order, store every recognised letter. The result is the
      target board, so its text form reads back to it. */
  method Analyze(obs: seq<seq<CellObservation>>, threshold: real) returns (b: ScrabbleBoard)
    requires WellFormed(obs)
    ensures IsSquare(b) && AllCanonical(b)
    ensures forall i, j :: 0 <= i < BoardSize && 0 <= j < BoardSize ==>
              b.grid[i][j] == ExpectedCell(obs[i][j], threshold)
    ensures FromStrings(ToStrings(b)) == Success(b)
  {
    ghost var t := Target(obs, threshold);
    b := NewBoard();
    var row := 0;
    while row < BoardSize
      invariant 0 <= row <= BoardSize
      invariant IsSquare(b)
      invariant forall i :: 0 <= i < row ==> b.grid[i] == t.grid[i]
      invariant forall i, j :: row <= i < BoardSize && 0 <= j < BoardSize ==> b.grid[i][j] == EmptyCell
    {
      b := AnalyzeRow(b, obs, row, threshold);
      row := row + 1;
    }
    assert b == t;
    BoardRoundTrip(b);
  }

  /** A single-letter board: when every other cell looks empty and the one cell
      that does not is read as the upper-case letter `ch` with enough
      confidence, the result holds exactly that tile, not blank, at that
      square. */
  lemma OneConfidentLetter(obs: seq<seq<CellObservation>>, threshold: real, row: nat, col: nat, ch: char, conf: real)
    requires WellFormed(obs) && row < BoardSize && col < BoardSize
    requires forall i, j :: 0 <= i < BoardSize && 0 <= j < BoardSize && (i != row || j != col) ==>
               IsCellEmpty(obs[i][j].gray)
    requires !IsCellEmpty(obs[row][col].gray)
    requires IsUpper(ch) && conf >= threshold
    requires obs[row][col].readings == [Candidate([ch], conf)]
    ensures forall i, j :: 0 <= i < BoardSize && 0 <= j < BoardSize ==>
              Target(obs, threshold).grid[i][j] ==
                (if i == row && j == col then Cell(Some([ch]), false) else EmptyCell)
  {
    SingleLetterAccepted(ch, conf, threshold);
  }

  /** A lone reading of one upper-case letter at or above the threshold is
      taken as that letter. */
  lemma SingleLetterAccepted(ch: char, conf: real, threshold: real)
    requires IsUpper(ch) && conf >= threshold
    ensures SelectLetter([Candidate([ch], conf)], threshold) == Some(ch)
  {
    assert !IsSpace(ch);
    assert TrimStart([ch]) == [ch];
    assert TrimEnd([ch]) == [ch];
    assert UpperString([ch]) == [ch] by { UpperLetterStoredAsIs(ch); }
    assert Normalize([ch]) == [ch];
    assert Accepts(Candidate([ch], conf), threshold);
    assert FirstAccepted([Candidate([ch], conf)], threshold) == Some(0);
  }
}

=== FILE: ascii.dfy ===
/** The ASCII subset of Python's `str.upper`, `str.lower`, `str.islower`,
    `str.isalpha` and `str.strip` that the board and the recognition filter use. */
module Ascii {

  predicate IsAscii(c: char) {
    c as int < 128
  }

  predicate IsUpper(c: char) {
    'A' <= c <= 'Z'
  }

  predicate IsLower(c: char) {
    'a' <= c <= 'z'
  }

  predicate IsAlpha(c: char) {
    IsUpper(c) || IsLower(c)
  }

  /** Python's whitespace among the ASCII characters: space, \t \n \v \f \r and
      the four separators \x1c..\x1f. */
  predicate IsSpace(c: char) {
    c == ' ' || 9 <= c as int <= 13 || 28 <= c as int <= 31
  }

  function ToUpper(c: char): (u: char)
    ensures IsLower(c) ==> IsUpper(u) && u as int + 32 == c as int
    ensures !IsLower(c) ==> u == c
  {
    if IsLower(c) then (c as int - 32) as char else c
  }

  function ToLower(c: char): (l: char)
    ensures IsUpper(c) ==> IsLower(l) && l as int == c as int + 32
    ensures !IsUpper(c) ==> l == c
  {
    if IsUpper(c) then (c as int + 32) as char else c
  }

  function UpperString(s: string): (u: string)
    ensures |u| == |s|
    ensures forall i :: 0 <= i < |s| ==> u[i] == ToUpper(s[i])
  {
    seq(|s|, i requires 0 <= i < |s| => ToUpper(s[i]))
  }

  function LowerString(s: string): (l: string)
    ensures |l| == |s|
    ensures forall i :: 0 <= i < |s| ==> l[i] == ToLower(s[i])
  {
    seq(|s|, i requires 0 <= i < |s| => ToLower(s[i]))
  }

  /** `str.lstrip()`: drops the leading whitespace and nothing else. */
  function TrimStart(s: string): (r: string)
    ensures |r| <= |s| && r == s[|s| - |r|..]
    ensures forall i :: 0 <= i < |s| - |r| ==> IsSpace(s[i])
    ensures r == [] || !IsSpace(r[0])
  {
    if s == [] || !IsSpace(s[0]) then s else TrimStart(s[1..])
  }

  /** `str.rstrip()`: drops the trailing whitespace and nothing else. */
  function TrimEnd(s: string): (r: string)
    ensures |r| <= |s| && r == s[..|r|]
    ensures forall i :: |r| <= i < |s| ==> IsSpace(s[i])
    ensures r == [] || !IsSpace(r[|r| - 1])
  {
    if s == [] || !IsSpace(s[|s| - 1]) then s else TrimEnd(s[..|s| - 1])
  }

  /** Python's `str.strip()` with no argument, on ASCII text: `lstrip` then
      `rstrip`. Its properties are the lemma StripTrimmed. */
  function Strip(s: string): string {
    TrimEnd(TrimStart(s))
  }

  /** The stripped text is no longer than the input and neither starts nor
      ends with whitespace. That only whitespace is removed, and only at the
      ends, is the contracts of TrimStart and TrimEnd. */
  lemma StripTrimmed(s: string)
    ensures |Strip(s)| <= |s|
    ensures Strip(s) == [] || (!IsSpace(Strip(s)[0]) && !IsSpace(Strip(s)[|Strip(s)| - 1]))
  {
    var t := TrimStart(s);
    assert Strip(s) == TrimEnd(t);
  }

  /** Upper-casing neither creates nor removes whitespace, and leaves no
      lower-case letter. */
  lemma UpperKeepsSpace(c: char)
    ensures IsSpace(ToUpper(c)) == IsSpace(c)
    ensures !IsLower(ToUpper(c))
  {
  }

  /** Upper-casing leaves no lower-case letter and keeps a string free of
      surrounding whitespace. */
  lemma UpperKeepsTrimmed(t: string)
    requires t == [] || (!IsSpace(t[0]) && !IsSpace(t[|t| - 1]))
    ensures forall k :: 0 <= k < |UpperString(t)| ==> !IsLower(UpperString(t)[k])
    ensures UpperString(t) == [] ||
            (!IsSpace(UpperString(t)[0]) && !IsSpace(UpperString(t)[|UpperString(t)| - 1]))
  {
    var u := UpperString(t);
    forall k | 0 <= k < |u|
      ensures !IsLower(u[k])
    {
      UpperKeepsSpace(t[k]);
    }
    if t != [] {
      UpperKeepsSpace(t[0]);
      UpperKeepsSpace(t[|t| - 1]);
    }
  }

  /** Upper-casing neither makes nor unmakes a letter. */
  lemma UpperKeepsAlpha(c: char)
    ensures IsAlpha(ToUpper(c)) <==> IsAlpha(c)
  {
  }

  lemma LowerOfUpper(c: char)
    requires IsLower(c)
    ensures ToLower(ToUpper(c)) == c
  {
  }
}

=== FILE: board.dfy ===
/** The 15x15 Scrabble board container: cells, the default grid, point access and
    the row-string text codec (crossplaycheater/board.py). */
module Board {
  import opened Wrappers
  import opened Ascii

  const BoardSize: nat := 15

  /** One square: an optional letter and the blank-tile (wildcard) flag. */
  datatype Cell = Cell(letter: Option<string>, isBlank: bool)

  const EmptyCell := Cell(None, false)

  datatype ScrabbleBoard = ScrabbleBoard(grid: seq<seq<Cell>>)

  /** The two `ValueError`s of `from_strings`. */
  datatype BoardError =
    | WrongRowCount(got: nat)
    | WrongRowLength(row: nat, got: nat)

  predicate IsSquare(b: ScrabbleBoard) {
    && |b.grid| == BoardSize
    && forall i :: 0 <= i < |b.grid| ==> |b.grid[i]| == BoardSize
  }

  predicate InRange(b: ScrabbleBoard, row: int, col: int) {
    0 <= row < |b.grid| && 0 <= col < |b.grid[row]|
  }

  /** A cell as `from_strings` and `set` with one letter produce it: either no
      letter and no blank flag, or a single upper-case letter. */
  predicate IsCanonical(c: Cell) {
    match c.letter
    case None => !c.isBlank
    case Some(l) => |l| == 1 && IsUpper(l[0])
  }

  predicate AllCanonical(b: ScrabbleBoard) {
    forall i, j :: 0 <= i < |b.grid| && 0 <= j < |b.grid[i]| ==> IsCanonical(b.grid[i][j])
  }

  // ---------------------------------------------------------------- rendering

  /** `Cell.__str__`: a dot for a missing letter, the lower-cased letter for a
      blank tile and the upper-cased letter otherwise. */
  function Render(c: Cell): (s: string)
    ensures s == "." <==> c.letter.None? || c.letter.value == "."
    ensures c.letter.Some? ==> |s| == |c.letter.value|
    ensures c.letter.Some? && c.isBlank ==> forall k :: 0 <= k < |s| ==> !IsUpper(s[k])
    ensures c.letter.Some? && !c.isBlank ==> forall k :: 0 <= k < |s| ==> !IsLower(s[k])
  {
    match c.letter
    case None => "."
    case Some(l) =>
      var s := if c.isBlank then LowerString(l) else UpperString(l);
      assert s == "." ==> l[0] == '.';
      s
  }

  /** One row string: the concatenation of the cells' renderings. */
  function RenderRow(row: seq<Cell>): (s: string)
    ensures (forall j :: 0 <= j < |row| ==> |Render(row[j])| == 1) ==>
              |s| == |row| && forall j :: 0 <= j < |row| ==> s[j] == Render(row[j])[0]
  {
    if row == [] then [] else Render(row[0]) + RenderRow(row[1..])
  }

  /** `to_strings`: one rendered string per grid row. */
  function ToStrings(b: ScrabbleBoard): (rows: seq<string>)
    ensures |rows| == |b.grid|
    ensures forall i :: 0 <= i < |rows| ==> rows[i] == RenderRow(b.grid[i])
  {
    seq(|b.grid|, i requires 0 <= i < |b.grid| => RenderRow(b.grid[i]))
  }

  // ------------------------------------------------------------------ parsing

  /** The cell one character of `from_strings` produces: a dot leaves the default
      empty cell, any other character its upper-case form, blank when it was
      lower-case. */
  function ParseCell(ch: char): Cell {
    if ch == '.' then EmptyCell else Cell(Some([ToUpper(ch)]), IsLower(ch))
  }

  /** Index of the first row at or after `from` whose length is not 15. */
  function FirstBadRow(rows: seq<string>, from: nat): (r: Option<nat>)
    requires from <= |rows|
    ensures r.None? ==> forall i :: from <= i < |rows| ==> |rows[i]| == BoardSize
    ensures r.Some? ==> && from <= r.value < |rows|
                        && |rows[r.value]| != BoardSize
                        && forall i :: from <= i < r.value ==> |rows[i]| == BoardSize
    decreases |rows| - from
  {
    if from == |rows| then None
    else if |rows[from]| != BoardSize then Some(from)
    else FirstBadRow(rows, from + 1)
  }

  /** `ScrabbleBoard.from_strings`. */
  function FromStrings(rows: seq<string>): (r: Result<ScrabbleBoard, BoardError>)
    ensures |rows| != BoardSize ==> r == Failure(WrongRowCount(|rows|))
    ensures |rows| == BoardSize && r.Failure? ==> r.error.WrongRowLength?
    ensures r.Success? <==> |rows| == BoardSize && forall i :: 0 <= i < |rows| ==> |rows[i]| == BoardSize
    ensures r.Failure? && r.error.WrongRowLength? ==>
              && |rows| == BoardSize
              && r.error.row < |rows|
              && r.error.got == |rows[r.error.row]| != BoardSize
              && forall i :: 0 <= i < r.error.row ==> |rows[i]| == BoardSize
    ensures r.Success? ==>
              && IsSquare(r.value)
              && forall i, j :: 0 <= i < BoardSize && 0 <= j < BoardSize ==>
                   r.value.grid[i][j] == ParseCell(rows[i][j])
  {
    if |rows| != BoardSize then Failure(WrongRowCount(|rows|))
    else match FirstBadRow(rows, 0)
      case Some(i) => Failure(WrongRowLength(i, |rows[i]|))
      case None =>
        Success(ScrabbleBoard(seq(BoardSize, i requires 0 <= i < BoardSize =>
                  seq(BoardSize, j requires 0 <= j < BoardSize => ParseCell(rows[i][j])))))
  }

  // ------------------------------------------------------- construction, access

  /** The default grid of a freshly constructed `ScrabbleBoard`. */
  function NewBoard(): (b: ScrabbleBoard)
    ensures IsSquare(b)
    ensures forall i, j :: InRange(b, i, j) ==> b.grid[i][j] == EmptyCell
  {
    ScrabbleBoard(seq(BoardSize, _ => seq(BoardSize, _ => EmptyCell)))
  }

  function Get(b: ScrabbleBoard, row: int, col: int): Cell
    requires InRange(b, row, col)
  {
    b.grid[row][col]
  }

  /** `is_empty`: the cell holds no letter. */
  predicate IsEmpty(b: ScrabbleBoard, row: int, col: int)
    requires InRange(b, row, col)
  {
    Get(b, row, col).letter.None?
  }

  /** `set`: stores the upper-cased letter (a missing or empty letter stores no
      letter) together with the blank flag, and changes nothing else. */
  function Set(b: ScrabbleBoard, row: int, col: int, letter: Option<string>, isBlank: bool): (b': ScrabbleBoard)
    requires InRange(b, row, col)
    ensures |b'.grid| == |b.grid|
    ensures forall i :: 0 <= i < |b.grid| ==> |b'.grid[i]| == |b.grid[i]|
    ensures forall i, j :: InRange(b, i, j) && (i != row || j != col) ==> b'.grid[i][j] == b.grid[i][j]
    ensures Get(b', row, col).isBlank == isBlank
    ensures Get(b', row, col).letter.None? <==> letter.None? || letter.value == []
    ensures Get(b', row, col).letter.Some? ==> Get(b', row, col).letter.value == UpperString(letter.value)
  {
    var stored := if letter.Some? && letter.value != [] then Some(UpperString(letter.value)) else None;
    ScrabbleBoard(b.grid[row := b.grid[row][col := Cell(stored, isBlank)]])
  }

  // ------------------------------------------------------------------ iteration

  function IterRow(cells: seq<Cell>, row: nat, col: nat): (t: seq<(nat, nat, Cell)>)
    ensures |t| == |cells|
    ensures forall k :: 0 <= k < |cells| ==> t[k] == (row, col + k, cells[k])
  {
    if cells == [] then [] else [(row, col, cells[0])] + IterRow(cells[1..], row, col + 1)
  }

  function IterRows(rows: seq<seq<Cell>>, row: nat): seq<(nat, nat, Cell)> {
    if rows == [] then [] else IterRow(rows[0], row, 0) + IterRows(rows[1..], row + 1)
  }

  /** `iter_cells`: every (row, col, cell) triple, rows first. */
  function IterCells(b: ScrabbleBoard): seq<(nat, nat, Cell)> {
    IterRows(b.grid, 0)
  }

  // ------------------------------------------------------------------- lemmas

  lemma {:induction false} IterRowsRowMajor(rows: seq<seq<Cell>>, row: nat)
    requires forall i :: 0 <= i < |rows| ==> |rows[i]| == BoardSize
    ensures |IterRows(rows, row)| == BoardSize * |rows|
    ensures forall k :: 0 <= k < BoardSize * |rows| ==>
              IterRows(rows, row)[k] == (row + k / BoardSize, k % BoardSize, rows[k / BoardSize][k % BoardSize])
  {
    if rows != [] {
      IterRowsRowMajor(rows[1..], row + 1);
      var head := IterRow(rows[0], row, 0);
      var tail := IterRows(rows[1..], row + 1);
      assert IterRows(rows, row) == head + tail && |head| == BoardSize;
      forall k | 0 <= k < BoardSize * |rows|
        ensures IterRows(rows, row)[k] == (row + k / BoardSize, k % BoardSize, rows[k / BoardSize][k % BoardSize])
      {
        if k < BoardSize {
          assert k / BoardSize == 0 && k % BoardSize == k;
          assert IterRows(rows, row)[k] == head[k];
        } else {
          NextRow(k);
          assert IterRows(rows, row)[k] == tail[k - BoardSize];
          assert rows[1..][(k - BoardSize) / BoardSize] == rows[k / BoardSize];
        }
      }
    }
  }

  /** Index k of the row-major order lies one row further than k - 15. */
  lemma NextRow(k: int)
    requires k >= BoardSize
    ensures (k - BoardSize) / BoardSize == k / BoardSize - 1
    ensures (k - BoardSize) % BoardSize == k % BoardSize
  {
  }

  /** `iter_cells` yields exactly 225 triples in row-major order, each agreeing
      with `get`. */
  lemma IterCellsRowMajor(b: ScrabbleBoard)
    requires IsSquare(b)
    ensures |IterCells(b)| == BoardSize * BoardSize
    ensures forall k :: 0 <= k < BoardSize * BoardSize ==>
              IterCells(b)[k] == (k / BoardSize, k % BoardSize, Get(b, k / BoardSize, k % BoardSize))
  {
    IterRowsRowMajor(b.grid, 0);
  }

  /** A fresh board renders as 15 rows of 15 dots. */
  lemma NewBoardText()
    ensures ToStrings(NewBoard()) == seq(BoardSize, _ => seq(BoardSize, _ => '.'))
  {
    var rows := ToStrings(NewBoard());
    forall i | 0 <= i < BoardSize
      ensures rows[i] == seq(BoardSize, _ => '.')
    {
      assert forall j :: 0 <= j < BoardSize ==> Render(NewBoard().grid[i][j]) == ".";
    }
  }

  lemma RenderParseCell(ch: char)
    requires IsAscii(ch)
    ensures Render(ParseCell(ch)) == [ch]
  {
    if ch != '.' && IsLower(ch) {
      LowerOfUpper(ch);
    }
  }

  lemma ParseRenderCell(c: Cell)
    requires IsCanonical(c)
    ensures |Render(c)| == 1 && ParseCell(Render(c)[0]) == c
  {
    if c.letter.Some? {
      var u := c.letter.value[0];
      assert c.letter.value == [u];
      if c.isBlank {
        assert Render(c) == [ToLower(u)];
      } else {
        assert Render(c) == [u];
      }
    }
  }

  /** Parsing 15 rows of 15 ASCII characters and rendering the board gives the
      rows back. */
  lemma StringsRoundTrip(rows: seq<string>)
    requires |rows| == BoardSize
    requires forall i :: 0 <= i < BoardSize ==> |rows[i]| == BoardSize
    requires forall i, j :: 0 <= i < BoardSize && 0 <= j < BoardSize ==> IsAscii(rows[i][j])
    ensures FromStrings(rows).Success?
    ensures ToStrings(FromStrings(rows).value) == rows
  {
    var b := FromStrings(rows).value;
    forall i | 0 <= i < BoardSize
      ensures RenderRow(b.grid[i]) == rows[i]
    {
      forall j | 0 <= j < BoardSize
        ensures Render(b.grid[i][j]) == [rows[i][j]]
      {
        RenderParseCell(rows[i][j]);
      }
    }
  }

  /** Rendering a square board of canonical cells and parsing the rows gives the
      board back. */
  lemma BoardRoundTrip(b: ScrabbleBoard)
    requires IsSquare(b) && AllCanonical(b)
    ensures FromStrings(ToStrings(b)) == Success(b)
  {
    var rows := ToStrings(b);
    forall i, j | 0 <= i < BoardSize && 0 <= j < BoardSize
      ensures |Render(b.grid[i][j])| == 1 && ParseCell(Render(b.grid[i][j])[0]) == b.grid[i][j]
    {
      ParseRenderCell(b.grid[i][j]);
    }
    assert FromStrings(rows).Success?;
    var b' := FromStrings(rows).value;
    forall i | 0 <= i < BoardSize
      ensures b'.grid[i] == b.grid[i]
    {
      forall j | 0 <= j < BoardSize
        ensures b'.grid[i][j] == b.grid[i][j]
      {
        assert rows[i][j] == Render(b.grid[i][j])[0];
      }
    }
    assert b'.grid == b.grid;
  }

  /** The blank flag of a cell without a letter is not part of the text form:
      `set(r, c, None, True)` followed by a round trip loses it. */
  lemma EmptyBlankCellIsNotSerialised()
    ensures var b := Set(NewBoard(), 0, 0, None, true);
            FromStrings(ToStrings(b)) != Success(b)
  {
    var b := Set(NewBoard(), 0, 0, None, true);
    assert Render(b.grid[0][0]) == ".";
    assert FromStrings(ToStrings(b)).value.grid[0][0] == EmptyCell;
  }

  /** On canonical cells `is_empty` holds exactly where the text form shows a
      dot. */
  lemma IsEmptyMatchesText(b: ScrabbleBoard, row: int, col: int)
    requires IsSquare(b) && InRange(b, row, col) && AllCanonical(b)
    ensures IsEmpty(b, row, col) <==> ToStrings(b)[row][col] == '.'
  {
    forall j | 0 <= j < BoardSize
      ensures |Render(b.grid[row][j])| == 1
    {
      ParseRenderCell(b.grid[row][j]);
    }
  }

  /** `get` after `set` reads the stored cell back at the square that was set
      and the old cell everywhere else. */
  lemma GetAfterSet(b: ScrabbleBoard, row: int, col: int, letter: Option<string>, isBlank: bool, i: int, j: int)
    requires InRange(b, row, col) && InRange(b, i, j)
    ensures InRange(Set(b, row, col, letter, isBlank), i, j)
    ensures (i != row || j != col) ==> Get(Set(b, row, col, letter, isBlank), i, j) == Get(b, i, j)
    ensures i == row && j == col && letter.Some? && letter.value != [] ==>
              Get(Set(b, row, col, letter, isBlank), i, j) == Cell(Some(UpperString(letter.value)), isBlank)
    ensures i == row && j == col && (letter.None? || letter.value == []) ==>
              Get(Set(b, row, col, letter, isBlank), i, j) == Cell(None, isBlank)
  {
  }

  /** A character of `from_strings` other than the dot stores the cell that
      `set` with that character and the blank flag "is lower-case" stores; the
      dot stores the default empty cell. */
  lemma ParseCellAgreesWithSet(b: ScrabbleBoard, row: int, col: int, ch: char)
    requires InRange(b, row, col)
    ensures ch == '.' ==> ParseCell(ch) == EmptyCell
    ensures ch != '.' ==> ParseCell(ch) == Get(Set(b, row, col, Some([ch]), IsLower(ch)), row, col)
  {
    assert UpperString([ch]) == [ToUpper(ch)];
  }

  /** `to_strings` of a square board of canonical cells: 15 rows of 15
      characters, a dot exactly at the squares without a letter, and a
      lower-case character exactly at the blank tiles. */
  lemma ToStringsShape(b: ScrabbleBoard)
    requires IsSquare(b) && AllCanonical(b)
    ensures |ToStrings(b)| == BoardSize
    ensures forall i :: 0 <= i < BoardSize ==> |ToStrings(b)[i]| == BoardSize
    ensures forall i, j :: 0 <= i < BoardSize && 0 <= j < BoardSize ==>
              (ToStrings(b)[i][j] == '.' <==> b.grid[i][j].letter.None?)
    ensures forall i, j :: 0 <= i < BoardSize && 0 <= j < BoardSize ==>
              (IsLower(ToStrings(b)[i][j]) <==> b.grid[i][j].isBlank)
  {
    BoardRoundTrip(b);
    var rows := ToStrings(b);
    forall i, j | 0 <= i < BoardSize && 0 <= j < BoardSize
      ensures |rows[i]| == BoardSize
      ensures rows[i][j] == '.' <==> b.grid[i][j].letter.None?
      ensures IsLower(rows[i][j]) <==> b.grid[i][j].isBlank
    {
      ParseRenderCell(b.grid[i][j]);
      assert ParseCell(rows[i][j]) == b.grid[i][j];
    }
  }

  /** After `set`, the cell is empty exactly when the letter was falsy. */
  lemma SetThenIsEmpty(b: ScrabbleBoard, row: int, col: int, letter: Option<string>, isBlank: bool)
    requires InRange(b, row, col)
    ensures IsEmpty(Set(b, row, col, letter, isBlank), row, col) <==> letter.None? || letter.value == []
  {
  }

  /** Setting a single ASCII letter keeps a square canonical board square and
      canonical, so its text form still round-trips. */
  lemma SetKeepsCanonical(b: ScrabbleBoard, row: int, col: int, ch: char, isBlank: bool)
    requires IsSquare(b) && AllCanonical(b) && InRange(b, row, col)
    requires IsAlpha(ch)
    ensures IsSquare(Set(b, row, col, Some([ch]), isBlank))
    ensures AllCanonical(Set(b, row, col, Some([ch]), isBlank))
  {
  }
}

=== FILE: contours.dfy ===
/** Board-region detection (`_find_board_contour` and the branching of
    `_detect_board_region` in crossplaycheater/board_analyzer.py). Contour
    extraction, area, perimeter and polygon approximation are image geometry
    outside the model: each contour arrives as its area and the vertices of its
    approximated polygon. */
module Contours {
  import opened Wrappers
  import opened Corners

  /** An external contour as selection sees it: `contourArea` and the vertices
      `approxPolyDP` returned at 2% of the perimeter. */
  datatype Contour = Contour(area: real, approx: seq<Point>)

  /** A board must cover at least this fraction of the image. */
  const MinAreaFraction: real := 0.1

  /** Where the cells are cut from: the whole image when no board was found
      (the degraded path), or the quadrilateral warped to a square. */
  datatype BoardRegion = WholeImage | Warped(corners: Quad)

  /** Large enough and approximated by exactly four vertices. */
  predicate IsBoardCandidate(c: Contour, imageHeight: nat, imageWidth: nat) {
    && c.area >= (imageHeight * imageWidth) as real * MinAreaFraction
    && |c.approx| == 4
  }

  predicate NoCandidate(cs: seq<Contour>, imageHeight: nat, imageWidth: nat) {
    forall i :: 0 <= i < |cs| ==> !IsBoardCandidate(cs[i], imageHeight, imageWidth)
  }

  /** Index of the contour `_find_board_contour` keeps: the candidates are sorted
      by area, descending, with Python's stable sort, and the first is taken, so
      among candidates of largest area the earliest wins. */
  function LargestCandidate(cs: seq<Contour>, imageHeight: nat, imageWidth: nat): (r: Option<nat>)
    ensures r.None? <==> NoCandidate(cs, imageHeight, imageWidth)
    ensures r.Some? ==> r.value < |cs| && IsBoardCandidate(cs[r.value], imageHeight, imageWidth)
    ensures r.Some? ==> forall i :: 0 <= i < |cs| && IsBoardCandidate(cs[i], imageHeight, imageWidth) ==>
                           cs[i].area <= cs[r.value].area
    ensures r.Some? ==> forall i :: 0 <= i < r.value && IsBoardCandidate(cs[i], imageHeight, imageWidth) ==>
                           cs[i].area < cs[r.value].area
  {
    if cs == [] then None
    else
      var rest := LargestCandidate(cs[1..], imageHeight, imageWidth);
      if !IsBoardCandidate(cs[0], imageHeight, imageWidth) then
        (if rest.Some? then Some(rest.value + 1) else None)
      else if rest.Some? && cs[rest.value + 1].area > cs[0].area then Some(rest.value + 1)
      else Some(0)
  }

  /** `_find_board_contour`: the four vertices of the chosen contour, or none. */
  function FindBoardContour(cs: seq<Contour>, imageHeight: nat, imageWidth: nat): (r: Option<seq<Point>>)
    ensures r.None? <==> NoCandidate(cs, imageHeight, imageWidth)
    ensures r.Some? ==> |r.value| == 4
  {
    match LargestCandidate(cs, imageHeight, imageWidth)
    case None => None
    case Some(k) => Some(cs[k].approx)
  }

  /** `_detect_board_region` up to the warp: the whole image when there are no
      contours or no candidate, otherwise the chosen corners in canonical order. */
  function DetectBoardRegion(cs: seq<Contour>, imageHeight: nat, imageWidth: nat): (r: BoardRegion)
    ensures r.WholeImage? <==> NoCandidate(cs, imageHeight, imageWidth)
    ensures r.Warped? ==>
              var k := LargestCandidate(cs, imageHeight, imageWidth).value;
              && multiset(Points(r.corners)) == multiset(cs[k].approx)
              && r.corners == OrderCorners(cs[k].approx)
              && r.corners.topLeft.x <= r.corners.topRight.x
              && r.corners.bottomLeft.x <= r.corners.bottomRight.x
              && r.corners.topLeft.y <= r.corners.bottomLeft.y
              && r.corners.topLeft.y <= r.corners.bottomRight.y
              && r.corners.topRight.y <= r.corners.bottomLeft.y
              && r.corners.topRight.y <= r.corners.bottomRight.y
  {
    if cs == [] then WholeImage
    else match FindBoardContour(cs, imageHeight, imageWidth)
      case None => WholeImage
      case Some(approx) => Warped(OrderCorners(approx))
  }

  /** The chosen contour is a candidate of maximal area, and no earlier candidate
      has that area. */
  lemma FindBoardContourPicksLargest(cs: seq<Contour>, imageHeight: nat, imageWidth: nat)
    requires !NoCandidate(cs, imageHeight, imageWidth)
    ensures exists k :: && 0 <= k < |cs|
                        && IsBoardCandidate(cs[k], imageHeight, imageWidth)
                        && FindBoardContour(cs, imageHeight, imageWidth) == Some(cs[k].approx)
                        && (forall i :: 0 <= i < |cs| && IsBoardCandidate(cs[i], imageHeight, imageWidth) ==>
                              cs[i].area <= cs[k].area)
                        && (forall i :: 0 <= i < k && IsBoardCandidate(cs[i], imageHeight, imageWidth) ==>
                              cs[i].area < cs[k].area)
  {
    var k := LargestCandidate(cs, imageHeight, imageWidth).value;
    assert FindBoardContour(cs, imageHeight, imageWidth) == Some(cs[k].approx);
  }
}

=== FILE: corners.dfy ===
/** Canonical ordering of the four board corners (`_order_corners` in
    crossplaycheater/board_analyzer.py): sort the points by y, split them into a
    top and a bottom pair, and order each pair by x. Corner coordinates come from
    an integer polygon approximation, so they are modelled as integers. */
module Corners {

  datatype Point = Point(x: int, y: int)

  /** The result array [top-left, top-right, bottom-right, bottom-left]. */
  datatype Quad = Quad(topLeft: Point, topRight: Point, bottomRight: Point, bottomLeft: Point)

  function Points(q: Quad): seq<Point> {
    [q.topLeft, q.topRight, q.bottomRight, q.bottomLeft]
  }

  predicate SortedByY(s: seq<Point>) {
    forall i, j :: 0 <= i < j < |s| ==> s[i].y <= s[j].y
  }

  /** No two of the points share a y coordinate (so no point occurs twice). */
  predicate DistinctY(s: seq<Point>) {
    forall i, j :: 0 <= i < j < |s| ==> s[i].y != s[j].y
  }

  /** Inserts `p` in front of the first point that is not above it. */
  function Insert(p: Point, s: seq<Point>): (r: seq<Point>)
    requires SortedByY(s)
    ensures |r| == |s| + 1
    ensures r[0] == p || (s != [] && r[0] == s[0])
    ensures SortedByY(r)
    ensures multiset(r) == multiset(s) + multiset{p}
  {
    if s == [] || p.y <= s[0].y then
      ConsSorted(p, s);
      [p] + s
    else
      SortedTail(s);
      var rest := Insert(p, s[1..]);
      InsertBehind(p, s, rest);
      [s[0]] + rest
  }

  /** The recursive case of Insert: the head stays in front of the insertion
      into the tail. */
  lemma InsertBehind(p: Point, s: seq<Point>, rest: seq<Point>)
    requires s != [] && s[0].y < p.y && SortedByY(s) && SortedByY(rest)
    requires |rest| == |s| && (rest[0] == p || (|s| > 1 && rest[0] == s[1]))
    requires multiset(rest) == multiset(s[1..]) + multiset{p}
    ensures SortedByY([s[0]] + rest)
    ensures multiset([s[0]] + rest) == multiset(s) + multiset{p}
  {
    SortedTail(s);
    ConsSorted(s[0], rest);
    assert s == [s[0]] + s[1..];
  }

  lemma SortedTail(s: seq<Point>)
    requires SortedByY(s) && s != []
    ensures SortedByY(s[1..])
    ensures |s| > 1 ==> s[0].y <= s[1].y
  {
  }

  lemma ConsSorted(h: Point, s: seq<Point>)
    requires SortedByY(s)
    requires s != [] ==> h.y <= s[0].y
    ensures SortedByY([h] + s)
  {
    forall i, j | 0 <= i < j < |[h] + s|
      ensures ([h] + s)[i].y <= ([h] + s)[j].y
    {
      if i > 0 {
        assert ([h] + s)[i] == s[i - 1];
      } else {
        assert h.y <= s[0].y <= s[j - 1].y;
      }
    }
  }

  /** The y-sort (`np.argsort` on the y column). numpy leaves the order of
      points with equal y unspecified; this model keeps their input order. */
  function SortByY(s: seq<Point>): (r: seq<Point>)
    ensures |r| == |s|
    ensures SortedByY(r)
    ensures multiset(r) == multiset(s)
  {
    if s == [] then []
    else
      assert s == [s[0]] + s[1..];
      Insert(s[0], SortByY(s[1..]))
  }

  /** Orders a pair by x (`np.argsort` on two x coordinates). numpy leaves the
      order of two points with equal x unspecified; this model keeps them as given. */
  function OrderPair(a: Point, b: Point): (r: (Point, Point))
    ensures r.0.x <= r.1.x
    ensures (r.0 == a && r.1 == b) || (r.0 == b && r.1 == a)
  {
    if b.x < a.x then (b, a) else (a, b)
  }

  /** `_order_corners`. */
  function OrderCorners(pts: seq<Point>): (q: Quad)
    requires |pts| == 4
    ensures multiset(Points(q)) == multiset(pts)
    ensures q.topLeft.y <= q.bottomLeft.y && q.topLeft.y <= q.bottomRight.y
    ensures q.topRight.y <= q.bottomLeft.y && q.topRight.y <= q.bottomRight.y
    ensures q.topLeft.x <= q.topRight.x
    ensures q.bottomLeft.x <= q.bottomRight.x
  {
    var s := SortByY(pts);
    var top := OrderPair(s[0], s[1]);
    var bottom := OrderPair(s[2], s[3]);
    PairsKeepPoints(s, top, bottom);
    Quad(top.0, top.1, bottom.1, bottom.0)
  }

  // ------------------------------------------------------------------- lemmas

  lemma PairsKeepPoints(s: seq<Point>, top: (Point, Point), bottom: (Point, Point))
    requires |s| == 4 && SortedByY(s)
    requires top == (s[0], s[1]) || top == (s[1], s[0])
    requires bottom == (s[2], s[3]) || bottom == (s[3], s[2])
    ensures multiset([top.0, top.1, bottom.1, bottom.0]) == multiset(s)
    ensures top.0.y <= bottom.0.y && top.0.y <= bottom.1.y
    ensures top.1.y <= bottom.0.y && top.1.y <= bottom.1.y
  {
    assert s[0].y <= s[2].y && s[0].y <= s[3].y && s[1].y <= s[2].y && s[1].y <= s[3].y;
    PairsKeepMultiset(s, top, bottom);
  }

  lemma PairsKeepMultiset(s: seq<Point>, top: (Point, Point), bottom: (Point, Point))
    requires |s| == 4
    requires top == (s[0], s[1]) || top == (s[1], s[0])
    requires bottom == (s[2], s[3]) || bottom == (s[3], s[2])
    ensures multiset([top.0, top.1, bottom.1, bottom.0]) == multiset(s)
  {
    var out := [top.0, top.1, bottom.1, bottom.0];
    assert out == [top.0, top.1] + [bottom.1, bottom.0];
    assert s == s[..2] + s[2..];
    PairSeqMultiset(top, s[..2]);
    PairSeqMultiset((bottom.1, bottom.0), s[2..]);
  }

  /** A two-element slice holds the same points as a pair made of them in
      either order. */
  lemma PairSeqMultiset(p: (Point, Point), t: seq<Point>)
    requires |t| == 2 && (p == (t[0], t[1]) || p == (t[1], t[0]))
    ensures multiset([p.0, p.1]) == multiset(t)
  {
    assert t == [t[0], t[1]];
  }

  lemma CountAtLeastTwo(s: seq<Point>, i: nat, j: nat)
    requires i < j < |s| && s[i] == s[j]
    ensures multiset(s)[s[i]] >= 2
  {
    assert s == s[..j] + [s[j]] + s[j + 1..];
    assert s[..j][i] == s[i];
    assert s[i] in multiset(s[..j]);
  }

  lemma TwoIndicesOf(s: seq<Point>, v: Point)
    requires multiset(s)[v] >= 2
    ensures exists i, j :: 0 <= i < j < |s| && s[i] == v && s[j] == v
  {
    assert v in multiset(s);
    var k :| 0 <= k < |s| && s[k] == v;
    assert s == s[..k] + [s[k]] + s[k + 1..];
    var rest := s[..k] + s[k + 1..];
    assert multiset(rest)[v] >= 1;
    assert v in multiset(rest);
    var m :| 0 <= m < |rest| && rest[m] == v;
    if m < k {
      assert s[m] == v;
    } else {
      assert s[m + 1] == v;
    }
  }

  /** Distinct y coordinates are a property of the multiset of points. */
  lemma DistinctYPermutation(a: seq<Point>, b: seq<Point>)
    requires multiset(a) == multiset(b) && DistinctY(a)
    ensures DistinctY(b)
  {
    forall i, j | 0 <= i < j < |b|
      ensures b[i].y != b[j].y
    {
      if b[i].y == b[j].y {
        assert b[i] in multiset(a) && b[j] in multiset(a);
        var k :| 0 <= k < |a| && a[k] == b[i];
        var l :| 0 <= l < |a| && a[l] == b[j];
        if k == l {
          CountAtLeastTwo(b, i, j);
          TwoIndicesOf(a, b[i]);
        }
        assert false;
      }
    }
  }

  /** Two y-sorted arrangements of the same points with distinct y coordinates
      are the same sequence. */
  lemma {:induction false} SortedUnique(s: seq<Point>, t: seq<Point>)
    requires SortedByY(s) && SortedByY(t)
    requires multiset(s) == multiset(t)
    requires DistinctY(s)
    ensures s == t
  {
    assert |t| == |multiset(t)| == |multiset(s)| == |s|;
    if s != [] {
      SameHead(s, t);
      TailFacts(s, t);
      SortedUnique(s[1..], t[1..]);
      assert s == [s[0]] + s[1..] && t == [t[0]] + t[1..];
    }
  }

  /** Both arrangements start with the topmost point. */
  lemma SameHead(s: seq<Point>, t: seq<Point>)
    requires SortedByY(s) && SortedByY(t) && DistinctY(s)
    requires multiset(s) == multiset(t) && s != [] && t != []
    ensures s[0] == t[0]
  {
    assert s[0] in multiset(t) && t[0] in multiset(s);
    var j :| 0 <= j < |t| && t[j] == s[0];
    var k :| 0 <= k < |s| && s[k] == t[0];
    assert t[0].y <= t[j].y && s[0].y <= s[k].y;
    assert s[k].y == s[0].y;
    assert k == 0;
  }

  /** Dropping the common head keeps both arrangements sorted, keeps their
      points equal as multisets and keeps the y coordinates distinct. */
  lemma TailFacts(s: seq<Point>, t: seq<Point>)
    requires SortedByY(s) && SortedByY(t) && DistinctY(s)
    requires multiset(s) == multiset(t) && s != [] && t != [] && s[0] == t[0]
    ensures SortedByY(s[1..]) && SortedByY(t[1..]) && DistinctY(s[1..])
    ensures multiset(s[1..]) == multiset(t[1..])
  {
    SortedTail(s);
    SortedTail(t);
    DistinctTail(s);
    TailMultiset(s);
    TailMultiset(t);
  }

  lemma DistinctTail(s: seq<Point>)
    requires DistinctY(s) && s != []
    ensures DistinctY(s[1..])
  {
  }

  lemma TailMultiset(s: seq<Point>)
    requires s != []
    ensures multiset(s[1..]) == multiset(s) - multiset{s[0]}
  {
    assert s == [s[0]] + s[1..];
  }

  /** With distinct y coordinates the canonical order does not depend on the
      order in which the four corners are given. */
  lemma OrderCornersPermutationInvariant(pts: seq<Point>, q: seq<Point>)
    requires |pts| == 4 && multiset(q) == multiset(pts)
    requires DistinctY(pts)
    ensures |q| == 4 && OrderCorners(q) == OrderCorners(pts)
  {
    assert |q| == |multiset(q)| == |multiset(pts)| == 4;
    DistinctYPermutation(pts, SortByY(pts));
    SortedUnique(SortByY(pts), SortByY(q));
  }

  /** With distinct y coordinates ordering an already ordered quadrilateral
      changes nothing. */
  lemma OrderCornersIdempotent(pts: seq<Point>)
    requires |pts| == 4 && DistinctY(pts)
    ensures OrderCorners(Points(OrderCorners(pts))) == OrderCorners(pts)
  {
    OrderCornersPermutationInvariant(pts, Points(OrderCorners(pts)));
  }
}

=== FILE: emptiness.dfy ===
/** The emptiness heuristic of a cell (`_is_cell_empty` in
    crossplaycheater/board_analyzer.py), over the cell's grayscale values. The
    colour-to-gray conversion is outside the model. */
module Emptiness {
  import opened Numbers

  /** One 8-bit grayscale pixel. */
  type Gray = x: int | 0 <= x < 256

  const Bins: nat := 256

  /** The variance bound below which a cell counts as uniform. */
  const VarianceLimit: nat := 100

  function Sum(g: seq<Gray>): int {
    if g == [] then 0 else g[0] + Sum(g[1..])
  }

  function SumSquares(g: seq<Gray>): int {
    if g == [] then 0 else g[0] * g[0] + SumSquares(g[1..])
  }

  /** `np.var(gray) < 100`, in exact integers: the population variance is
      (n * sum(x^2) - sum(x)^2) / n^2, so the test is multiplied through by n^2. */
  predicate LowVariance(g: seq<Gray>) {
    |g| * SumSquares(g) - Sum(g) * Sum(g) < VarianceLimit * |g| * |g|
  }

  /** The 256-bin histogram `cv2.calcHist` produces. HistogramCounts shows that
      bin v counts the pixels of value v. */
  function Histogram(g: seq<Gray>): (hist: seq<nat>)
    ensures |hist| == Bins
  {
    if g == [] then Zeros(Bins)
    else Bump(Histogram(g[1..]), g[0])
  }

  /** Adds one pixel of value v to its bin. */
  function Bump(hist: seq<nat>, v: Gray): (r: seq<nat>)
    requires |hist| == Bins
    ensures |r| == Bins
    ensures r[v] == hist[v] + 1
    ensures forall i :: 0 <= i < Bins && i != v ==> r[i] == hist[i]
  {
    hist[v := hist[v] + 1]
  }

  /** Bin v of the histogram is the number of pixels of gray value v. */
  lemma {:induction false} HistogramCounts(g: seq<Gray>)
    ensures forall v :: 0 <= v < Bins ==> Histogram(g)[v] == multiset(g)[v]
  {
    if g != [] {
      var rest := Histogram(g[1..]);
      HistogramCounts(g[1..]);
      assert Histogram(g) == Bump(rest, g[0]);
      assert multiset(g) == multiset(g[1..]) + multiset{g[0]} by {
        assert g == [g[0]] + g[1..];
      }
    }
  }

  /** The largest bin (`np.max(hist)`). */
  function Peak(hist: seq<nat>): (m: nat)
    requires |hist| > 0
    ensures forall i :: 0 <= i < |hist| ==> hist[i] <= m
    ensures m in hist
  {
    if |hist| == 1 then hist[0] else Max(hist[0], Peak(hist[1..]))
  }

  /** `_is_cell_empty`: uniform enough, or one gray value holds more than half of
      the pixels. A cell without pixels is rejected by the colour conversion
      before either test runs. */
  predicate IsCellEmpty(g: seq<Gray>)
    requires |g| > 0
  {
    LowVariance(g) || 2 * Peak(Histogram(g)) > |g|
  }

  // ------------------------------------------- squared deviations from the mean

  /** The summed squared deviations from the mean, scaled by n so that they stay
      integers: with mean s/n, (x - s/n)^2 * n^2 == (n*x - s)^2. The population
      variance is below 100 exactly when Spread(g, n, s) < 100 * n^3. */
  function Spread(g: seq<Gray>, n: int, s: int): int {
    if g == [] then 0 else (n * g[0] - s) * (n * g[0] - s) + Spread(g[1..], n, s)
  }

  /** The variance test, stated over the deviations from the mean. */
  predicate VarianceBelowLimit(g: seq<Gray>)
    requires |g| > 0
  {
    Spread(g, |g|, Sum(g)) < VarianceLimit * (|g| * |g| * |g|)
  }

  // ------------------------------------------------------------------- lemmas

  lemma SquareOfDifference(a: int, b: int)
    ensures (a - b) * (a - b) == a * a - 2 * a * b + b * b
  {
  }

  lemma {:induction false} SpreadExpand(g: seq<Gray>, n: int, s: int)
    ensures Spread(g, n, s) == n * n * SumSquares(g) - 2 * n * s * Sum(g) + |g| * (s * s)
  {
    if g != [] {
      SpreadExpand(g[1..], n, s);
      SpreadStep(n, s, g[0], SumSquares(g[1..]), Sum(g[1..]), |g[1..]|, Spread(g[1..], n, s));
    }
  }

  /** One induction step of SpreadExpand, over plain integers. */
  lemma SpreadStep(n: int, s: int, x: int, q: int, t: int, k: int, d: int)
    requires d == n * n * q - 2 * n * s * t + k * (s * s)
    ensures (n * x - s) * (n * x - s) + d ==
              n * n * (x * x + q) - 2 * n * s * (x + t) + (k + 1) * (s * s)
  {
    SquareOfDifference(n * x, s);
    assert (n * x) * (n * x) == n * n * (x * x);
  }

  /** The integer test is exactly "variance below 100". */
  lemma LowVarianceIsVarianceBelowLimit(g: seq<Gray>)
    requires |g| > 0
    ensures LowVariance(g) <==> VarianceBelowLimit(g)
  {
    SpreadExpand(g, |g|, Sum(g));
    SpreadAlgebra(|g|, Sum(g), SumSquares(g), Spread(g, |g|, Sum(g)));
  }

  /** The algebra of the lemma above over plain integers: n is the count, s the
      sum, q the sum of squares and d the scaled deviation sum. */
  lemma SpreadAlgebra(n: int, s: int, q: int, d: int)
    requires n > 0
    requires d == n * n * q - 2 * n * s * s + n * (s * s)
    ensures d < VarianceLimit * (n * n * n) <==> n * q - s * s < VarianceLimit * n * n
  {
    assert d == n * (n * q - s * s);
    assert VarianceLimit * (n * n * n) == n * (VarianceLimit * n * n);
    ScaleLess(n, n * q - s * s, VarianceLimit * n * n);
  }

  lemma ScaleLess(n: int, a: int, b: int)
    requires n > 0
    ensures n * a < n * b <==> a < b
  {
    if a < b {
      assert n * b - n * a == n * (b - a);
    } else {
      assert n * a - n * b == n * (a - b);
    }
  }

  lemma {:induction false} ConstantSums(g: seq<Gray>, a: Gray)
    requires forall i :: 0 <= i < |g| ==> g[i] == a
    ensures Sum(g) == |g| * a
    ensures SumSquares(g) == |g| * (a * a)
  {
    if g != [] {
      ConstantSums(g[1..], a);
    }
  }

  /** A cell of one solid gray value has variance 0 and is empty. */
  lemma UniformCellIsEmpty(g: seq<Gray>)
    requires |g| > 0
    requires forall i :: 0 <= i < |g| ==> g[i] == g[0]
    ensures LowVariance(g)
    ensures IsCellEmpty(g)
  {
    var n, a := |g|, g[0];
    ConstantSums(g, a);
    assert n * (n * (a * a)) - (n * a) * (n * a) == 0;
  }

  /** A gray value held by more than half of the pixels makes the cell empty. */
  lemma DominantValueIsEmpty(g: seq<Gray>, v: Gray)
    requires 2 * multiset(g)[v] > |g|
    ensures |g| > 0 && IsCellEmpty(g)
  {
    HistogramCounts(g);
  }

  /** The histogram accounts for every pixel (`np.sum(hist)` is the pixel count). */
  lemma {:induction false} HistogramTotal(g: seq<Gray>)
    ensures SumNat(Histogram(g)) == |g|
  {
    if g != [] {
      var rest := Histogram(g[1..]);
      HistogramTotal(g[1..]);
      assert Histogram(g) == Bump(rest, g[0]);
      SumNatIncrement(rest, Bump(rest, g[0]), g[0]);
    } else {
      SumNatZeros(Bins);
    }
  }

  /** k empty bins. */
  function Zeros(k: nat): (z: seq<nat>)
    ensures |z| == k
    ensures forall i :: 0 <= i < k ==> z[i] == 0
  {
    if k == 0 then [] else [0] + Zeros(k - 1)
  }

  lemma {:induction false} SumNatZeros(k: nat)
    ensures SumNat(Zeros(k)) == 0
  {
    if k > 0 {
      SumNatZeros(k - 1);
      assert Zeros(k)[1..] == Zeros(k - 1);
    }
  }

  function SumNat(s: seq<nat>): nat {
    if s == [] then 0 else s[0] + SumNat(s[1..])
  }

  /** Adding one to a single entry adds one to the total. */
  lemma {:induction false} SumNatIncrement(s: seq<nat>, t: seq<nat>, i: nat)
    requires |t| == |s| && i < |s| && t[i] == s[i] + 1
    requires forall j :: 0 <= j < |s| && j != i ==> t[j] == s[j]
    ensures SumNat(t) == SumNat(s) + 1
  {
    if i == 0 {
      assert t[1..] == s[1..];
    } else {
      SumNatIncrement(s[1..], t[1..], i - 1);
    }
  }

  /** Histogram-free statement of the heuristic: empty exactly when the variance
      is below 100 or some gray value holds more than half of the pixels. */
  lemma IsCellEmptyCharacterization(g: seq<Gray>)
    requires |g| > 0
    ensures IsCellEmpty(g) <==>
              (VarianceBelowLimit(g) || exists v: Gray :: 2 * multiset(g)[v] > |g|)
  {
    LowVarianceIsVarianceBelowLimit(g);
    HistogramCounts(g);
    var hist := Histogram(g);
    if 2 * Peak(hist) > |g| {
      var v :| 0 <= v < |hist| && hist[v] == Peak(hist);
      assert 2 * multiset(g)[v as Gray] > |g|;
    }
    if exists v: Gray :: 2 * multiset(g)[v] > |g| {
      var v: Gray :| 2 * multiset(g)[v] > |g|;
      DominantValueIsEmpty(g, v);
    }
  }

  /** Two far-apart values in equal shares: high variance, no dominant value,
      so the cell is not empty. */
  lemma SplitCellIsNotEmpty()
    ensures !IsCellEmpty([0, 255])
  {
    var g: seq<Gray> := [0, 255];
    assert Sum(g) == 255 && SumSquares(g) == 255 * 255;
    var hist := Histogram(g);
    HistogramCounts(g);
    forall v | 0 <= v < Bins
      ensures hist[v] <= 1
    {
      assert multiset(g)[v] <= 1;
    }
  }
}

=== FILE: numbers.dfy ===
/** The integer minimum and maximum shared by the segmentation bounds and the
    histogram peak. */
module Numbers {

  function Min(a: int, b: int): int {
    if a <= b then a else b
  }

  function Max(a: int, b: int): int {
    if a >= b then a else b
  }
}

=== FILE: recognition.dfy ===
/** Letter recognition for one cell (`_recognize_cell` in
    crossplaycheater/board_analyzer.py). The OCR engine itself is outside the
    model: its answer for the cell arrives as the list of candidates it read,
    in the order it reported them. */
module Recognition {
  import opened Wrappers
  import opened Ascii
  import opened Emptiness

  /** One OCR reading: the text read and the engine's confidence in it. The
      bounding box the engine also reports is never used. */
  datatype Candidate = Candidate(text: string, confidence: real)

  /** The analyzer's default minimum OCR confidence. */
  const DefaultThreshold: real := 0.5

  /** `text.strip().upper()`. Its properties are the lemma NormalizeFacts. */
  function Normalize(text: string): string {
    UpperString(Strip(text))
  }

  /** The normalised text is no longer than the reading, contains no
      lower-case letter, and neither starts nor ends with whitespace. */
  lemma NormalizeFacts(text: string)
    ensures |Normalize(text)| <= |text|
    ensures forall k :: 0 <= k < |Normalize(text)| ==> !IsLower(Normalize(text)[k])
    ensures Normalize(text) == [] ||
            (!IsSpace(Normalize(text)[0]) && !IsSpace(Normalize(text)[|Normalize(text)| - 1]))
  {
    var t := Strip(text);
    var r := UpperString(t);
    assert Normalize(text) == r;
    StripTrimmed(text);
    UpperKeepsTrimmed(t);
    assert |r| == |t| <= |text|;
    assert forall k :: 0 <= k < |r| ==> !IsLower(r[k]);
    assert r == [] || (!IsSpace(r[0]) && !IsSpace(r[|r| - 1]));
  }

  /** A reading is taken when it is confident enough, non-empty, and strips and
      upper-cases to a single letter. */
  predicate Accepts(c: Candidate, threshold: real) {
    && c.confidence >= threshold
    && c.text != []
    && |Normalize(c.text)| == 1
    && IsAlpha(Normalize(c.text)[0])
  }

  /** The position of the first element satisfying p, if any. */
  function FirstWhere<T>(s: seq<T>, p: T -> bool): (r: Option<nat>)
    ensures r.Some? ==> r.value < |s| && p(s[r.value])
    ensures r.Some? ==> forall k :: 0 <= k < r.value ==> !p(s[k])
    ensures r.None? <==> forall k :: 0 <= k < |s| ==> !p(s[k])
  {
    if s == [] then None
    else if p(s[0]) then Some(0)
    else
      assert forall j :: 1 <= j < |s| ==> s[j] == s[1..][j - 1];
      match FirstWhere(s[1..], p)
      case None => None
      case Some(k) => Some(k + 1)
  }

  /** The elements satisfying p, in their original order (FilterConcat). */
  function Filter<T>(s: seq<T>, p: T -> bool): (r: seq<T>)
    ensures |r| <= |s|
    ensures forall k :: 0 <= k < |r| ==> p(r[k])
    ensures forall k :: 0 <= k < |s| && p(s[k]) ==> s[k] in r
    ensures multiset(r) <= multiset(s)
  {
    assert s != [] ==> s == [s[0]] + s[1..];
    if s == [] then []
    else if p(s[0]) then [s[0]] + Filter(s[1..], p)
    else Filter(s[1..], p)
  }

  /** The position of the first accepted reading, if any. */
  function FirstAccepted(cands: seq<Candidate>, threshold: real): (r: Option<nat>)
    ensures r.Some? ==> r.value < |cands| && Accepts(cands[r.value], threshold)
    ensures r.Some? ==> forall k :: 0 <= k < r.value ==> !Accepts(cands[k], threshold)
    ensures r.None? <==> forall k :: 0 <= k < |cands| ==> !Accepts(cands[k], threshold)
  {
    FirstWhere(cands, c => Accepts(c, threshold))
  }

  /** The letter of the first accepted reading, upper-cased. */
  function SelectLetter(cands: seq<Candidate>, threshold: real): (r: Option<char>)
    ensures r.Some? ==> IsUpper(r.value)
    ensures r.None? <==> forall k :: 0 <= k < |cands| ==> !Accepts(cands[k], threshold)
  {
    match FirstAccepted(cands, threshold)
    case None => None
    case Some(k) =>
      NormalizeFacts(cands[k].text);
      Some(Normalize(cands[k].text)[0])
  }

  /** `_recognize_cell`: an empty-looking cell yields no letter whatever the OCR
      engine would have read; otherwise the first accepted reading decides. */
  function RecognizeCell(gray: seq<Gray>, cands: seq<Candidate>, threshold: real): (r: Option<char>)
    requires |gray| > 0
    ensures IsCellEmpty(gray) ==> r.None?
    ensures r.Some? ==> IsUpper(r.value)
    ensures r.Some? ==> exists k :: 0 <= k < |cands| && Accepts(cands[k], threshold)
    ensures !IsCellEmpty(gray) ==> r == SelectLetter(cands, threshold)
  {
    if IsCellEmpty(gray) then None else SelectLetter(cands, threshold)
  }

  // ------------------------------------------------------------------- lemmas

  /** The acceptance test in terms of the stripped reading: confident enough,
      and the reading strips to a single letter of either case. */
  lemma AcceptsStripped(c: Candidate, threshold: real)
    ensures Accepts(c, threshold) <==>
              && c.confidence >= threshold
              && c.text != []
              && |Strip(c.text)| == 1
              && IsAlpha(Strip(c.text)[0])
  {
    var t := Strip(c.text);
    var r := UpperString(t);
    assert Normalize(c.text) == r && |r| == |t|;
    if |t| == 1 {
      assert r[0] == ToUpper(t[0]);
      UpperKeepsAlpha(t[0]);
    }
  }

  /** A cell not judged empty yields the upper-cased text of its first accepted
      reading, and no letter exactly when no reading is accepted. */
  lemma NonEmptyCellReadsFirstAccepted(gray: seq<Gray>, cands: seq<Candidate>, threshold: real)
    requires |gray| > 0 && !IsCellEmpty(gray)
    ensures RecognizeCell(gray, cands, threshold).None? <==>
              forall k :: 0 <= k < |cands| ==> !Accepts(cands[k], threshold)
    ensures FirstAccepted(cands, threshold).Some? ==>
              RecognizeCell(gray, cands, threshold) ==
                Some(Normalize(cands[FirstAccepted(cands, threshold).value].text)[0])
  {
    assert RecognizeCell(gray, cands, threshold) == SelectLetter(cands, threshold);
    if FirstAccepted(cands, threshold).Some? {
      var k := FirstAccepted(cands, threshold).value;
      assert SelectLetter(cands, threshold) == Some(Normalize(cands[k].text)[0]);
    }
  }

  /** The readings that would be taken, in their original order
      (AcceptedOnlyConcat). */
  function AcceptedOnly(cands: seq<Candidate>, threshold: real): (r: seq<Candidate>)
    ensures |r| <= |cands|
    ensures forall k :: 0 <= k < |r| ==> Accepts(r[k], threshold)
    ensures forall k :: 0 <= k < |cands| && Accepts(cands[k], threshold) ==> cands[k] in r
    ensures multiset(r) <= multiset(cands)
  {
    Filter(cands, c => Accepts(c, threshold))
  }

  /** Filtering distributes over concatenation, so the kept elements stay in
      their original order: those of an earlier part come before those of a
      later one. */
  lemma {:induction false} FilterConcat<T>(a: seq<T>, b: seq<T>, p: T -> bool)
    ensures Filter(a + b, p) == Filter(a, p) + Filter(b, p)
  {
    if a == [] {
      assert a + b == b;
    } else {
      TailOfConcat(a, b);
      FilterConcat(a[1..], b, p);
      var rest := Filter(a[1..], p) + Filter(b, p);
      assert (a + b)[0] == a[0] && Filter((a + b)[1..], p) == rest;
      if p(a[0]) {
        assert Filter(a + b, p) == [a[0]] + rest;
        assert [a[0]] + rest == ([a[0]] + Filter(a[1..], p)) + Filter(b, p);
      }
    }
  }

  /** The accepted readings of two batches, in order, are those of the first
      batch followed by those of the second. */
  lemma AcceptedOnlyConcat(a: seq<Candidate>, b: seq<Candidate>, threshold: real)
    ensures AcceptedOnly(a + b, threshold) == AcceptedOnly(a, threshold) + AcceptedOnly(b, threshold)
  {
    FilterConcat(a, b, c => Accepts(c, threshold));
  }

  /** The first element satisfying p heads the filtered sequence. */
  lemma {:induction false} FirstWhereHeadsFilter<T>(s: seq<T>, p: T -> bool)
    ensures FirstWhere(s, p).Some? <==> Filter(s, p) != []
    ensures FirstWhere(s, p).Some? ==> Filter(s, p)[0] == s[FirstWhere(s, p).value]
    ensures FirstWhere(Filter(s, p), p) == if Filter(s, p) == [] then None else Some(0)
  {
    if s != [] {
      FirstWhereHeadsFilter(s[1..], p);
      if !p(s[0]) && FirstWhere(s[1..], p).Some? {
        var k := FirstWhere(s[1..], p).value;
        assert s[k + 1] == s[1..][k];
      }
    }
  }

  /** Elements appended after a match change nothing. */
  lemma {:induction false} FirstWhereExtend<T>(s: seq<T>, more: seq<T>, p: T -> bool)
    requires FirstWhere(s, p).Some?
    ensures FirstWhere(s + more, p) == FirstWhere(s, p)
  {
    assert (s + more)[0] == s[0];
    if !p(s[0]) {
      TailOfConcat(s, more);
      FirstWhereExtend(s[1..], more, p);
    }
  }

  /** Readings that are not taken never influence the result: recognising
      from the accepted readings alone gives the same letter, which is the text
      of the first of them. */
  lemma RejectedReadingsIgnored(cands: seq<Candidate>, threshold: real)
    ensures SelectLetter(cands, threshold) == SelectLetter(AcceptedOnly(cands, threshold), threshold)
    ensures SelectLetter(cands, threshold).Some? <==> AcceptedOnly(cands, threshold) != []
    ensures AcceptedOnly(cands, threshold) != [] ==>
              SelectLetter(cands, threshold) == Some(Normalize(AcceptedOnly(cands, threshold)[0].text)[0])
  {
    FirstWhereHeadsFilter(cands, c => Accepts(c, threshold));
  }

  /** Readings appended after an accepted one change nothing: the scan stops at
      the first accepted reading. */
  lemma LaterReadingsIgnored(cands: seq<Candidate>, more: seq<Candidate>, threshold: real)
    requires SelectLetter(cands, threshold).Some?
    ensures SelectLetter(cands + more, threshold) == SelectLetter(cands, threshold)
  {
    var k := FirstAccepted(cands, threshold).value;
    FirstWhereExtend(cands, more, c => Accepts(c, threshold));
    assert (cands + more)[k] == cands[k];
  }

  lemma TailOfConcat<T>(a: seq<T>, b: seq<T>)
    requires a != []
    ensures (a + b)[1..] == a[1..] + b
  {
  }

  /** A confident first reading is not needed: a weak reading is skipped and the
      next confident single letter is taken and upper-cased. */
  lemma WeakReadingSkipped()
    ensures SelectLetter([Candidate("A", 0.3), Candidate(" b ", 0.9)], DefaultThreshold) == Some('B')
  {
    var cands := [Candidate("A", 0.3), Candidate(" b ", 0.9)];
    assert Strip(" b ") == "b" by { TrimExample(); }
    assert Normalize(" b ") == "B";
    assert !Accepts(cands[0], 0.5);
    assert Accepts(cands[1], 0.5);
    assert FirstAccepted(cands[1..], 0.5) == Some(0);
  }

  lemma TrimExample()
    ensures Strip(" b ") == "b"
  {
    assert IsSpace(' ') && !IsSpace('b');
    assert " b "[1..] == "b ";
    assert TrimStart("b ") == "b ";
    assert TrimStart(" b ") == "b ";
    assert "b "[..1] == "b";
    assert TrimEnd("b") == "b";
    assert TrimEnd("b ") == "b";
  }

  /** A reading of two letters is never taken, however confident. */
  lemma TwoLetterReadingRejected()
    ensures SelectLetter([Candidate("AB", 0.99)], DefaultThreshold) == None
  {
    assert TrimStart("AB") == "AB" && TrimEnd("AB") == "AB" by {
      assert !IsSpace('A') && !IsSpace('B');
    }
    assert |Normalize("AB")| == 2;
    assert !Accepts(Candidate("AB", 0.99), 0.5);
  }
}

=== FILE: segmentation.dfy ===
/** Cell segmentation of the rectified board image (`_extract_cells` in
    crossplaycheater/board_analyzer.py): a fixed 15x15 grid, cell sizes by floor
    division, half-open bounds and a clamped margin trim. Only the integer
    bounds are modelled; the pixel slicing they drive is not. */
module Segmentation {
  import opened Board
  import opened Numbers

  /** The half-open pixel rectangle [y1, y2) x [x1, x2). */
  datatype Box = Box(y1: int, y2: int, x1: int, x2: int)

  predicate Contains(b: Box, y: int, x: int) {
    b.y1 <= y < b.y2 && b.x1 <= x < b.x2
  }

  predicate Inside(inner: Box, outer: Box) {
    outer.y1 <= inner.y1 && inner.y2 <= outer.y2 && outer.x1 <= inner.x1 && inner.x2 <= outer.x2
  }

  /** No pixel lies in both boxes. */
  predicate Disjoint(a: Box, b: Box) {
    a.y2 <= b.y1 || b.y2 <= a.y1 || a.x2 <= b.x1 || b.x2 <= a.x1
  }

  /** Nominal cell extent along one axis. */
  function CellSize(extent: nat): nat {
    extent / BoardSize
  }

  /** The bounds of cell (row, col) before the trim. */
  function Untrimmed(height: nat, width: nat, row: nat, col: nat): Box {
    var ch := CellSize(height);
    var cw := CellSize(width);
    Box(row * ch, (row + 1) * ch, col * cw, (col + 1) * cw)
  }

  /** The trim applied to every side: a tenth of the smaller cell extent, but at
      least two pixels. */
  function Margin(cellHeight: nat, cellWidth: nat): (m: nat)
    ensures m >= 2
  {
    Max(2, Min(cellHeight, cellWidth) / 10)
  }

  /** What every trimmed cell satisfies: it is at least one pixel in each
      direction, shrinks each axis by twice the margin when the cell is large
      enough (and to one pixel otherwise), is shifted inward by the margin in the
      first case, and stays inside its untrimmed bounds whenever the cell size is
      at least one pixel. */
  predicate TrimmedFacts(b: Box, height: nat, width: nat, row: nat, col: nat) {
    var ch := CellSize(height);
    var cw := CellSize(width);
    var m := Margin(ch, cw);
    var u := Untrimmed(height, width, row, col);
    && b.y1 < b.y2
    && b.x1 < b.x2
    && b.y2 - b.y1 == Max(ch - 2 * m, 1)
    && b.x2 - b.x1 == Max(cw - 2 * m, 1)
    && (ch > 2 * m ==> b.y1 == u.y1 + m)
    && (cw > 2 * m ==> b.x1 == u.x1 + m)
    && (ch >= 1 ==> u.y1 <= b.y1 && b.y2 <= u.y2)
    && (cw >= 1 ==> u.x1 <= b.x1 && b.x2 <= u.x2)
  }

  /** `_extract_cells`, on the image's height and width. */
  method ExtractCells(height: nat, width: nat) returns (cells: seq<seq<Box>>)
    ensures |cells| == BoardSize
    ensures forall r :: 0 <= r < BoardSize ==> |cells[r]| == BoardSize
    ensures forall r, c :: 0 <= r < BoardSize && 0 <= c < BoardSize ==>
              TrimmedFacts(cells[r][c], height, width, r, c)
    ensures CellSize(height) >= 1 && CellSize(width) >= 1 ==>
              forall r1, c1, r2, c2 ::
                (0 <= r1 < BoardSize && 0 <= c1 < BoardSize &&
                 0 <= r2 < BoardSize && 0 <= c2 < BoardSize &&
                 (r1 != r2 || c1 != c2)) ==> Disjoint(cells[r1][c1], cells[r2][c2])
  {
    var cellHeight := height / BoardSize;
    var cellWidth := width / BoardSize;
    cells := [];
    var row := 0;
    while row < BoardSize
      invariant 0 <= row <= BoardSize
      invariant |cells| == row
      invariant forall r :: 0 <= r < row ==> |cells[r]| == BoardSize
      invariant forall r, c :: 0 <= r < row && 0 <= c < BoardSize ==>
                  TrimmedFacts(cells[r][c], height, width, r, c)
    {
      var rowCells := [];
      var col := 0;
      while col < BoardSize
        invariant 0 <= col <= BoardSize
        invariant |rowCells| == col
        invariant forall c :: 0 <= c < col ==> TrimmedFacts(rowCells[c], height, width, row, c)
      {
        var y1 := row * cellHeight;
        var y2 := (row + 1) * cellHeight;
        var x1 := col * cellWidth;
        var x2 := (col + 1) * cellWidth;
        var margin := Margin(cellHeight, cellWidth);
        y1 := Min(y1 + margin, y2 - 1);
        y2 := Max(y2 - margin, y1 + 1);
        x1 := Min(x1 + margin, x2 - 1);
        x2 := Max(x2 - margin, x1 + 1);
        rowCells := rowCells + [Box(y1, y2, x1, x2)];
        col := col + 1;
      }
      cells := cells + [rowCells];
      row := row + 1;
    }
    if CellSize(height) >= 1 && CellSize(width) >= 1 {
      forall r1, c1, r2, c2 |
        0 <= r1 < BoardSize && 0 <= c1 < BoardSize && 0 <= r2 < BoardSize && 0 <= c2 < BoardSize &&
        (r1 != r2 || c1 != c2)
        ensures Disjoint(cells[r1][c1], cells[r2][c2])
      {
        UntrimmedDisjoint(height, width, r1, c1, r2, c2);
      }
    }
  }

  lemma MulLe(a: int, b: int, k: nat)
    requires a <= b
    ensures a * k <= b * k
  {
  }

  /** Untrimmed cells at distinct grid positions share no pixel. */
  lemma UntrimmedDisjoint(height: nat, width: nat, r1: nat, c1: nat, r2: nat, c2: nat)
    requires r1 != r2 || c1 != c2
    ensures Disjoint(Untrimmed(height, width, r1, c1), Untrimmed(height, width, r2, c2))
  {
    var ch := CellSize(height);
    var cw := CellSize(width);
    if r1 < r2 {
      MulLe(r1 + 1, r2, ch);
    } else if r2 < r1 {
      MulLe(r2 + 1, r1, ch);
    } else if c1 < c2 {
      MulLe(c1 + 1, c2, cw);
    } else {
      MulLe(c2 + 1, c1, cw);
    }
  }

  /** Pixel coordinate `p` lies in the `k`-th slab of width `size` along one axis. */
  predicate InSlab(p: int, k: int, size: int) {
    k * size <= p < (k + 1) * size
  }

  /** A pixel in one of the first 15 slabs lies before 15 * size. */
  lemma SlabBelowGrid(p: int, k: nat, size: nat)
    requires k < BoardSize && InSlab(p, k, size)
    ensures p < BoardSize * size
  {
    MulLe(k + 1, BoardSize, size);
  }

  /** A pixel before 15 * size lies in slab p / size, which is one of the first 15. */
  lemma SlabOfPixel(p: nat, size: nat)
    requires size > 0 && p < BoardSize * size
    ensures 0 <= p / size < BoardSize && InSlab(p, p / size, size)
  {
    var k := p / size;
    assert k >= 0;
    assert k * size <= p < (k + 1) * size;
    if k >= BoardSize {
      MulLe(BoardSize, k, size);
    }
  }

  lemma ContainsUntrimmed(height: nat, width: nat, r: nat, c: nat, y: int, x: int)
    ensures Contains(Untrimmed(height, width, r, c), y, x) <==>
              InSlab(y, r, CellSize(height)) && InSlab(x, c, CellSize(width))
  {
  }

  /** The leftover strip along each axis is narrower than 15 pixels. */
  lemma Leftover(extent: nat)
    ensures BoardSize * CellSize(extent) <= extent < BoardSize * CellSize(extent) + BoardSize
  {
  }

  /** The untrimmed cells tile exactly [0, 15 * cell_h) x [0, 15 * cell_w): a
      pixel lies in some cell exactly when it is inside that rectangle (the
      cell is then the one CellOfPixel names). The leftover strips belong to no
      cell. */
  lemma UntrimmedTiling(height: nat, width: nat, y: nat, x: nat)
    ensures (exists r, c :: 0 <= r < BoardSize && 0 <= c < BoardSize &&
                          Contains(Untrimmed(height, width, r, c), y, x))
            <==> y < BoardSize * CellSize(height) && x < BoardSize * CellSize(width)
  {
    var ch := CellSize(height);
    var cw := CellSize(width);
    if y < BoardSize * ch && x < BoardSize * cw {
      CellOfPixel(height, width, y, x);
    }
    forall r, c | 0 <= r < BoardSize && 0 <= c < BoardSize &&
                  Contains(Untrimmed(height, width, r, c), y, x)
      ensures y < BoardSize * ch && x < BoardSize * cw
    {
      ContainsUntrimmed(height, width, r, c, y, x);
      SlabBelowGrid(y, r, ch);
      SlabBelowGrid(x, c, cw);
    }
  }

  /** A pixel of the tiled rectangle lies in the cell (y / cell_h, x / cell_w). */
  lemma CellOfPixel(height: nat, width: nat, y: nat, x: nat)
    requires y < BoardSize * CellSize(height) && x < BoardSize * CellSize(width)
    ensures CellSize(height) > 0 && CellSize(width) > 0
    ensures y / CellSize(height) < BoardSize && x / CellSize(width) < BoardSize
    ensures Contains(Untrimmed(height, width, y / CellSize(height), x / CellSize(width)), y, x)
  {
    var ch := CellSize(height);
    var cw := CellSize(width);
    assert ch > 0 && cw > 0;
    SlabOfPixel(y, ch);
    SlabOfPixel(x, cw);
    var r, c := y / ch, x / cw;
    assert InSlab(y, r, ch) && InSlab(x, c, cw);
    ContainsUntrimmed(height, width, r, c, y, x);
  }

  /** Horizontally and vertically adjacent untrimmed cells abut. */
  lemma UntrimmedAbut(height: nat, width: nat, row: nat, col: nat)
    ensures Untrimmed(height, width, row, col).y2 == Untrimmed(height, width, row + 1, col).y1
    ensures Untrimmed(height, width, row, col).x2 == Untrimmed(height, width, row, col + 1).x1
    ensures Untrimmed(height, width, row, col).y2 - Untrimmed(height, width, row, col).y1
              == CellSize(height)
    ensures Untrimmed(height, width, row, col).x2 - Untrimmed(height, width, row, col).x1
              == CellSize(width)
  {
  }
}

=== FILE: wrappers.dfy ===
/** The two wrapper types used across the model: an optional value (Python's
    `X | None`) and a result that carries either a value or an error (a raised
    exception in the source). */
module Wrappers {

  datatype Option<+T> = None | Some(value: T)

  datatype Result<+T, +E> = Success(value: T) | Failure(error: E)
}
